=== FILE: README.md ===
# TrollFools plug-in staging, inbox renaming, tab cycling and pre-injection backup — a Dafny model

TrollFools injects plug-ins (dynamic libraries, frameworks and resource
bundles) into installed iOS apps. This project models the pure decision
logic around injection and proves properties of it:

- **Asset preprocessing** (`InjectorV3.preprocessAssets`). Each input URL
  is routed by its lower-cased extension: a zip archive, a Debian package, a
  loose `bundle`/`dylib`/`framework`, or skipped. The input then expands into
  staged assets, plus the assets to mark as injected by this tool. File names
  on the ignore list are dropped. An empty result throws the error whose
  localisation key is "No valid plug-ins found.".
- **Inbox filename normalisation and the open-URL guard** (`AppListView`).
  A file another app shares lands in `/Documents/Inbox/`. A trailing run of
  digits after the last separator in its name, such as the number the
  system appends (`tweak-1.dylib`), is stripped together with that
  separator. Only file URLs ending in `dylib` or `deb` are accepted.
- **Filter-tab cycling** (`AppListView`). A horizontal drag moves the app
  list's filter (all, user, troll, system) one tab left or right, wrapping
  around.
- **Pre-injection backup** (`InjectView.inject`). Older backup archives of
  the app are pruned. A new archive `<name>Plugins_<MMdd-HHmmss>.zip` is
  written, either a copy of the zip being injected or an archive of the
  app's current plug-ins. Injection runs only after all of this succeeded.

Modules, one per concern:

| file | module | models |
|---|---|---|
| outcomes.dfy | `Outcomes` | `Option`, `Result` |
| strings.dfy | `Strings` | ASCII lower-casing, substring search, digit tests |
| seqs.dfy | `Seqs` | order-preserving `Filter` and its algebra |
| paths.dfy | `Paths` | file URLs as directory, stem and extension |
| preprocess.dfy | `Preprocess` | `preprocessAssets` |
| inbox.dfy | `InboxUrls` | `preprocessURL` and the `onOpenURL` guard |
| filters.dfy | `AppFilters` | the drag handler cycling the filter tabs |
| backups.dfy | `Backups` | prune test, archive name, timestamp, archive contents |
| inject.dfy | `InjectFlow` | `inject()`: step order, identifier defaults, result |

File-system operations are not performed. Each one becomes data:

- an input carries the entries its archive yields, and the reason its
  file-system step throws, if it does;
- `World` carries the outcome of every fallible step of `inject()`;
- results record the effects issued, in order, such as the list handed to
  the metadata store and the removals, writes and the injection call.

## Model

| member | source | states |
|---|---|---|
| Preprocess.KindOf | TrollFools/InjectorV3+Preprocess.swift:28-78 | an input is a zip iff its lower-cased extension is "zip", a deb iff "deb", a loose asset iff it is in {bundle, dylib, framework}, otherwise skipped |
| Preprocess.KindIgnoresCase | TrollFools/InjectorV3+Preprocess.swift:28 | extensions that lower-case alike are routed alike, and routing an extension equals routing its lower-cased form |
| Preprocess.Expand | TrollFools/InjectorV3+Preprocess.swift:26-91 | one input fails iff it is not skipped and either its file-system step throws (with that reason) or it is a loose asset whose file name is already taken in the staging directory (with that name); on success every mark is also staged |
| Preprocess.SkippedInputContributesNothing | TrollFools/InjectorV3+Preprocess.swift:78-90 | an input whose extension is none of zip/deb/bundle/dylib/framework in any case yields no assets, no marks and no error |
| Preprocess.ZipKeepsAllowedEntries | TrollFools/InjectorV3+Preprocess.swift:37-47 | from a zip, exactly the entries with an allowed extension are staged, each occurrence kept; an entry is marked iff it is staged and passes the bundle test |
| Preprocess.DebPutsBundlesLast | TrollFools/InjectorV3+Preprocess.swift:62-74 | from a deb, no bundle comes before a dylib or framework; exactly the dylib/framework/bundle entries are staged; exactly the bundles are marked |
| Preprocess.LooseYieldsItsCopy | TrollFools/InjectorV3+Preprocess.swift:78-89 | a loose asset whose file name is still free in the staging directory yields exactly one staged item, its copy there under the same file name, marked iff the bundle test holds |
| Preprocess.StageAll | TrollFools/InjectorV3+Preprocess.swift:26-91 | the loop over all inputs only fails with a file-system error or a taken copy destination, and on success every marked item is staged |
| Preprocess.CopiedNamesAppend | TrollFools/InjectorV3+Preprocess.swift:80-82 | the file names copied into the staging directory by two input lists run one after the other are those of each list |
| Preprocess.StageAllFailsIff | TrollFools/InjectorV3+Preprocess.swift:34-82 | the loop fails iff some input's step throws, given the names the inputs before it copied |
| Preprocess.StageAllAppend | TrollFools/InjectorV3+Preprocess.swift:26-91 | staging two input lists one after the other puts everything from the first before everything from the second, and succeeds iff both parts succeed and no loose asset of the second has the file name of one copied by the first |
| Preprocess.StageAllFailureSticks | TrollFools/InjectorV3+Preprocess.swift:26-91 | once a prefix of the inputs fails, later inputs do not change the error: the first failure decides |
| Preprocess.SameNameLooseCopiesCollide | TrollFools/InjectorV3+Preprocess.swift:78-82 | two loose assets with the same file name (or one given twice) make the second copy throw, so the call fails before anything is marked |
| Preprocess.PreprocessAssets | TrollFools/InjectorV3+Preprocess.swift:93-100 | marking is issued iff staging succeeded, with the whole unfiltered mark list, all of it staged; a staging error is passed through unchanged, and a marking failure carries the metadata store's own reason; the call succeeds whenever staging and marking succeed and some staged name is not ignored; success returns exactly `RemoveIgnored` of the staged list, so the staged order and every occurrence of a non-ignored item are kept, and the list is non-empty; "No valid plug-ins found." iff staging and marking succeeded and every staged name is ignored; that failure comes after marking |
| Preprocess.RemoveIgnored | TrollFools/InjectorV3+Preprocess.swift:95 | the list `PreprocessAssets` returns holds every occurrence of each staged item whose name is not ignored, and no occurrence of an ignored one |
| Preprocess.RemoveIgnoredKeepsOrder | TrollFools/InjectorV3+Preprocess.swift:95 | removing ignored names keeps the staged order: it splits over any split of the staged list |
| Preprocess.SelectBundles | TrollFools/InjectorV3+Preprocess.swift:41-45 | the zip marking loop collects the kept items passing the bundle test, in order |
| Preprocess.PartitionDebEntries | TrollFools/InjectorV3+Preprocess.swift:57-71 | the package walk collects dylibs/frameworks and bundles into two lists, each in walk order |
| Preprocess.StageOne | TrollFools/InjectorV3+Preprocess.swift:28-90 | one pass of the loop body, with its marking loop, package walk and copy, computes exactly `Expand` |
| Preprocess.PreprocessAssetsLoop | TrollFools/InjectorV3+Preprocess.swift:19-101 | the imperative loop, tracking the names copied into the staging directory and exiting on the first error, computes exactly `PreprocessAssets` |
| AppFilters.SwipeRight | TrollFools/AppListView.swift:153-163 | a right drag moves the tab one place back in picker order, wrapping from all to system |
| AppFilters.SwipeLeft | TrollFools/AppListView.swift:164-174 | a left drag moves the tab one place forward in picker order, wrapping from system to all |
| AppFilters.OnDragEnded | TrollFools/AppListView.swift:151-177 | a width above 100 moves one tab back, below -100 one tab forward, and within [-100, 100] keeps the selection |
| AppFilters.SwipesAreInverse | TrollFools/AppListView.swift:153-174 | left and right drags undo each other |
| AppFilters.RepeatedSwipeLeftPosition | TrollFools/AppListView.swift:164-174 | n left drags advance the tab n places modulo four |
| AppFilters.RepeatedSwipeRightPosition | TrollFools/AppListView.swift:153-163 | n right drags move the tab 3n places forward modulo four, that is n places back |
| AppFilters.FourSwipesCycle | TrollFools/AppListView.swift:151-177 | four drags the same way return to the start, and one to three drags do not |
| InboxUrls.Components | TrollFools/AppListView.swift:429 | splitting on '.', '_', '-', ' ' yields at least one component, none containing a separator |
| InboxUrls.ComponentsLast | TrollFools/AppListView.swift:429-430 | there are several components iff the stem has a separator, and the last component is the text after the last separator (the whole stem if none) |
| InboxUrls.RenamedStem | TrollFools/AppListView.swift:428-434 | a rename happens iff the text after the stem's last separator is all digits (possibly empty); the new stem is the old one cut before that separator, so it is strictly shorter |
| InboxUrls.RenamedStemStripsNumber | TrollFools/AppListView.swift:428-435 | a base name, one separator and a run of digits is renamed back to the base name |
| InboxUrls.PreprocessUrl | TrollFools/AppListView.swift:423-443 | the URL changes iff its path contains "/Documents/Inbox/", its stem has a numeric suffix and the copy succeeds; the directory and extension never change and a changed stem is the shortened one |
| InboxUrls.OnOpenUrl | TrollFools/AppListView.swift:326-331 | a URL is taken iff it is a file URL whose lower-cased extension is dylib or deb, and what is opened keeps its directory and such an extension |
| Backups.FormatTimestamp | TrollFools/InjectView.swift:65-67 | the timestamp is eleven characters: four digits, a dash, six digits |
| Backups.TimestampRoundTrip | TrollFools/InjectView.swift:65-67 | reading the `MMdd-HHmmss` string back gives the month, day, hour, minute and second it was formatted from |
| Backups.BackupFile | TrollFools/InjectView.swift:68-69 | the new archive lies in the backups folder and is named `<app name>Plugins_<timestamp>.zip` |
| Backups.InputZipPath | TrollFools/InjectView.swift:54 | the input-zip path exists iff there is exactly one input and its lower-cased extension is zip, and it is that input's path |
| Backups.PruneTargets | TrollFools/InjectView.swift:56-63 | a listed file is removed iff its name contains the app name, its lower-cased extension is zip, and its path is not the input zip's |
| Backups.AfterPruning | TrollFools/InjectView.swift:56-63 | a file remains iff it was listed and either was not selected or its removal failed; failures raise nothing |
| Backups.NextInjectionPrunesBackup | TrollFools/InjectView.swift:56-69 | the archive one injection writes is pruned by the next injection of the same app unless that injection's single input is this archive |
| Backups.SingleLatestRetention | TrollFools/InjectView.swift:56-69 | after pruning without failures and writing the new archive, the only zip files naming the app are the new archive and the input zip |
| Backups.PruneMatchesLongerAppNames | TrollFools/InjectView.swift:57 | backups of another app whose name contains this app's name are pruned too |
| Backups.ChooseBackupContents | TrollFools/InjectView.swift:71-86 | with a single zip input the backup is a copy of it; otherwise it has one entry per injected asset, in order, named by its last path component |
| InjectFlow.FillIfEmpty | TrollFools/InjectView.swift:33-39 | a non-empty identifier is kept, an empty one is replaced by the catalog's; the result is empty only if both are |
| InjectFlow.FillIfEmptyIdempotent | TrollFools/InjectView.swift:33-39 | filling a second time changes nothing |
| InjectFlow.PruneAndWrite | TrollFools/InjectView.swift:56-87 | the effects before the backup write are exactly one removal per prune target, in listing order, and the write is last |
| InjectFlow.PruneAndWriteShape | TrollFools/InjectView.swift:56-87 | every effect but the last is a removal, and the last is the only write |
| InjectFlow.PruneAndWriteRemovesTargets | TrollFools/InjectView.swift:56-63 | the files removed are exactly the listed files that pass the prune test, in listing order |
| InjectFlow.BackupPhase | TrollFools/InjectView.swift:41-87 | the backup steps succeed iff the folder exists or is created, the listing succeeds and the write succeeds; they never inject, and on success the write is their last effect |
| InjectFlow.Inject | TrollFools/InjectView.swift:26-107 | injection is attempted iff every earlier step succeeded, and then only once, last, immediately after the backup write; success iff injection succeeded too; a failure carries the log file iff the injector was opened and reported one; identifiers are filled only when empty |
| InjectFlow.BackupPhaseStopsAtFirstThrow | TrollFools/InjectView.swift:44-87 | the backup steps stop at the first throw: the folder is created, as the first effect, iff it was missing; the archive is written iff the folder exists or was created and the listing succeeded, and nothing but injection follows a write |
| InjectFlow.InjectStopsAtFirstThrow | TrollFools/InjectView.swift:29-89 | nothing happens when the injector cannot be opened; otherwise the folder creation and the archive write happen exactly as the backup steps allow, and only injection follows the write |
| InjectFlow.InjectLeavesAfterPruning | TrollFools/InjectView.swift:56-63 | of the listed backups, the call leaves exactly what the prune rule leaves: unselected files and those whose removal failed |
| InjectFlow.BackupPhaseRemovesTargets | TrollFools/InjectView.swift:43-63 | the backup steps remove exactly the prune targets, in listing order, once the backups folder exists or is created and is listed, and nothing otherwise |
| InjectFlow.InjectRemovesExactlyPruneTargets | TrollFools/InjectView.swift:43-63 | once the injector is open and the backups folder exists or is created and is listed, the call removes exactly the prune targets in listing order; otherwise it removes nothing |
| InjectFlow.InjectReportsFirstThrown | TrollFools/InjectView.swift:29-91 | the call fails iff some step throws, and its description is that of the first step to throw in the order: open injector, create folder, list folder, write backup, inject |
| InjectFlow.RemoveFailuresIgnored | TrollFools/InjectView.swift:62 | which removals fail changes neither the effects nor the result |
| InjectFlow.BackupWrittenBeforeInjection | TrollFools/InjectView.swift:65-89 | when the backup steps succeed, the last two effects are writing `<name>Plugins_<timestamp>.zip` with the chosen contents, then injecting the given URLs |

Behaviour of the code worth noting:

- Loose assets are copied into one staging directory under their own file
  names, so two of them with the same name make the second copy throw
  (`SameNameLooseCopiesCollide`). Archive entries land in per-input
  directories and are not deduplicated.
- A zip entry is marked when `checkIsBundle` accepts it, not by its
  extension.
- Marks are written before the ignore filter and before the emptiness check.
  So a call that fails with "No valid plug-ins found." has already marked.
- The prune test matches the app name as a substring of the file name, so it
  also removes backups of apps whose names contain this one's
  (`PruneMatchesLongerAppNames`).
- The inject step receives the caller's original URL list, not the
  preprocessed list.
- The inbox rename strips any run of digits after the stem's last
  separator, not only a number the system appended, and the run may be
  empty: `libfoo.2.dylib` becomes `libfoo.dylib` and `tweak-.dylib` becomes
  `tweak.dylib` (`RenamedStem`).

## Left out

- Unzipping, Debian package decomposition, directory listing and walking, copying, moving and removing files, and writing archives. These are file-system and archive I/O. Their results (entry lists, success or failure) are inputs.
- `checkIsBundle`, `markBundlesAsInjected`, `ignoredDylibAndFrameworkNames` and `injectedAssetURLsInBundle`. They are defined in files not part of this model and enter as parameters (`Env`, `World`).
- The unique staging-directory names built from `UUID()`: randomness. Entries are taken as already located.
- `Date()`: the clock. `DateFormatter` is modelled only as formatting a given month, day, hour, minute and second.
- `injector.inject` (load-command patching, signing, metadata). It is not part of this model; only whether it throws is an input.
- SwiftUI views, alerts, sheets, icon switching, the first-launch flag, `clearCache` and `rebuildIconCache`. These are UI and OS bookkeeping.
- Dispatch queues and the main actor: threading.
- Logging (`DDLog…`).
- Strings.Lower: lower-cases ASCII letters only, whereas Swift's `lowercased()` follows Unicode case mapping.
- InboxUrls.RenamedStem: treats only ASCII '0'–'9' as decimal digits (Foundation's `decimalDigits` includes other Unicode digits), and counts characters rather than grapheme clusters.
- Preprocess.PreprocessAssets: the staging directory is taken to be empty when the call starts; what an earlier call left there is not modelled. The "No valid plug-ins found." message is the localisation key passed to `NSLocalizedString`; its translation for the device language is not modelled.
- Backups.BackupFile: the archive name is kept as one file name inside the backups folder. When the app's display name contains '/', `appendingPathComponent` in the source treats it as a path separator, the archive lands in a missing subfolder and the write throws. The model does not tie the write's outcome (`World.backupWriteFailure`) to the app name, so for such names it can let `Inject` succeed where the source fails.
- Backups.FormatTimestamp: formatting is modelled for a fixed POSIX-style locale (ASCII digits, 24-hour clock, Gregorian calendar); the source's `DateFormatter` follows the device locale and calendar.
- InboxUrls.PreprocessUrl: when the shortened stem is empty (an inbox file named like `-1.dylib`), Foundation appends the extension to the Inbox directory itself, so the new file lands beside that directory; the model instead keeps the directory and uses an empty stem, so its promise that the directory is unchanged does not hold for that case.
- InboxUrls.OnOpenUrl: inherits the empty-stem gap of `PreprocessUrl`, so its promise that the opened file keeps its directory does not hold when the shortened stem is empty.
- InboxUrls.PreprocessUrl: the removal of an existing file at the new name is ignored, as in the source, and is not recorded. A file URL is taken as already split into directory, stem and extension, so Foundation's own path parsing is not modelled.
- AppFilters.OnDragEnded: the drag width is an exact real rather than a `CGFloat`.
- Preprocess.Expand: the package walk is taken as a given flat sequence. Items inside a bundle directory are staged when the walk lists them and their extension qualifies, as in the source; which items the real enumerator lists is not modelled.

=== FILE: backups.dfy ===
/** The backup bookkeeping that runs before every injection: which older
    backup archives in the backups folder are pruned, what the new archive
    is called, and what goes into it. */
module Backups {
  import opened Outcomes
  import opened Strings
  import opened Seqs
  import opened Paths

  /** Name of the backups folder inside the app's documents directory. */
  const BackupsFolderName: string := "TFPlugInsBackups"

  function BackupDirectory(documents: string): string {
    documents + "/" + BackupsFolderName
  }

  /** The local time the timestamp is formatted from; the clock itself is
      not modelled. */
  datatype LocalTime = LocalTime(month: nat, day: nat, hour: nat, minute: nat, second: nat)

  predicate ValidTime(t: LocalTime) {
    1 <= t.month <= 12 && 1 <= t.day <= 31 && t.hour < 24 && t.minute < 60 && t.second < 60
  }

  function DigitChar(n: nat): char
    requires n < 10
  {
    ('0' as int + n) as char
  }

  function DigitValue(c: char): int {
    c as int - '0' as int
  }

  /** A number below 100 as two digits, zero-padded. */
  function TwoDigits(n: nat): string
    requires n < 100
  {
    [DigitChar(n / 10), DigitChar(n % 10)]
  }

  /** The value of the two digits of `s` at `i`. */
  function ValueAt(s: string, i: nat): nat
    requires i + 2 <= |s| && IsDigit(s[i]) && IsDigit(s[i + 1])
  {
    10 * DigitValue(s[i]) + DigitValue(s[i + 1])
  }

  /** The date format `MMdd-HHmmss`. */
  function FormatTimestamp(t: LocalTime): (r: string)
    requires ValidTime(t)
    ensures |r| == 11 && r[4] == '-'
    ensures forall i :: 0 <= i < 11 && i != 4 ==> IsDigit(r[i])
  {
    TwoDigits(t.month) + TwoDigits(t.day) + "-" + TwoDigits(t.hour) + TwoDigits(t.minute) + TwoDigits(t.second)
  }

  /** Reads a `MMdd-HHmmss` string back. */
  function ParseTimestamp(s: string): Option<LocalTime> {
    if |s| == 11 && s[4] == '-' && (forall i :: 0 <= i < 11 && i != 4 ==> IsDigit(s[i])) then
      Some(LocalTime(ValueAt(s, 0), ValueAt(s, 2), ValueAt(s, 5), ValueAt(s, 7), ValueAt(s, 9)))
    else None
  }

  /** The timestamp carries the whole local time: reading it back gives the
      month, day, hour, minute and second it was formatted from. */
  lemma TimestampRoundTrip(t: LocalTime)
    requires ValidTime(t)
    ensures ParseTimestamp(FormatTimestamp(t)) == Some(t)
  {
  }

  /** The new archive, `<app name>Plugins_<timestamp>.zip` in the backups folder. */
  function BackupFile(backupDir: string, appName: string, timestamp: string): (r: FilePath)
    ensures r.dir == backupDir
    ensures LastComponent(r) == appName + "Plugins_" + timestamp + ".zip"
  {
    FilePath(backupDir, appName + "Plugins_" + timestamp, "zip")
  }

  /** The path of the single input when it is the only input and a zip
      archive (in any case), otherwise none. */
  function InputZipPath(urls: seq<FilePath>): (r: Option<string>)
    ensures r.Some? <==> |urls| == 1 && Lower(urls[0].ext) == "zip"
    ensures r.Some? ==> r.value == FullPath(urls[0])
  {
    if |urls| == 1 && Lower(urls[0].ext) == "zip" then Some(FullPath(urls[0])) else None
  }

  /** A listed file is pruned when its name contains the app's name, its
      extension is zip in any case, and it is not the zip being injected. */
  predicate ShouldPrune(file: FilePath, appName: string, inputZip: Option<string>) {
    && Contains(LastComponent(file), appName)
    && Lower(file.ext) == "zip"
    && !(inputZip.Some? && FullPath(file) == inputZip.value)
  }

  /** The files removed from the backups folder, in listing order. */
  function PruneTargets(listing: seq<FilePath>, appName: string, inputZip: Option<string>): (r: seq<FilePath>)
    ensures forall f :: f in r <==> f in listing && ShouldPrune(f, appName, inputZip)
  {
    Filter((f: FilePath) => ShouldPrune(f, appName, inputZip), listing)
  }

  /** Which of the listed files remain after pruning (hidden files, which
      the listing skips, are not listed). A removal that fails is ignored
      and the file stays. */
  function AfterPruning(listing: seq<FilePath>, appName: string, inputZip: Option<string>, removeFailures: set<FilePath>): (r: set<FilePath>)
    ensures forall f :: f in r <==> f in listing && (!ShouldPrune(f, appName, inputZip) || f in removeFailures)
  {
    var targets := PruneTargets(listing, appName, inputZip);
    set f | f in listing && (f !in targets || f in removeFailures)
  }

  /** The archive written by one injection is pruned by the next injection
      of the same app, unless that injection's single input is this very
      archive (restoring the last configuration). */
  lemma NextInjectionPrunesBackup(backupDir: string, appName: string, timestamp: string, laterUrls: seq<FilePath>)
    ensures var b := BackupFile(backupDir, appName, timestamp);
      ShouldPrune(b, appName, InputZipPath(laterUrls)) <==> InputZipPath(laterUrls) != Some(FullPath(b))
  {
  }

  /** Single-latest retention: once pruning has succeeded and the new
      archive is written, the only zip files left whose names contain the
      app's name are the new archive and the zip being injected. */
  lemma SingleLatestRetention(listing: seq<FilePath>, appName: string, urls: seq<FilePath>, newBackup: FilePath)
    ensures forall f ::
      (f in AfterPruning(listing, appName, InputZipPath(urls), {}) + {newBackup}
        && Contains(LastComponent(f), appName) && Lower(f.ext) == "zip")
      ==> f == newBackup || (|urls| == 1 && FullPath(f) == FullPath(urls[0]))
  {
  }

  /** Pruning matches names by substring, so the backups of another app
      whose name contains this app's name are pruned as well. */
  lemma PruneMatchesLongerAppNames(backupDir: string, prefix: string, appName: string, suffix: string, timestamp: string)
    ensures ShouldPrune(BackupFile(backupDir, prefix + appName + suffix, timestamp), appName, None)
  {
    var b := BackupFile(backupDir, prefix + appName + suffix, timestamp);
    ContainsInfix(prefix, appName, suffix + "Plugins_" + timestamp + ".zip");
    assert prefix + appName + (suffix + "Plugins_" + timestamp + ".zip") == LastComponent(b);
    assert Lower(b.ext) == "zip";
  }

  /** One archive entry: its name inside the archive and the file it holds. */
  datatype ArchiveEntry = ArchiveEntry(name: string, source: FilePath)

  /** A new backup is a verbatim copy of the zip being injected, or an
      archive of the app's current plug-ins. */
  datatype BackupContents = CopyOfInput(source: FilePath) | ArchiveOf(entries: seq<ArchiveEntry>)

  /** The archive-writing loop: one entry per asset, named by its file name. */
  function ArchiveEntries(assets: seq<FilePath>): seq<ArchiveEntry> {
    seq(|assets|, i requires 0 <= i < |assets| => ArchiveEntry(LastComponent(assets[i]), assets[i]))
  }

  /** With a single zip input the backup is that zip; otherwise it archives
      every currently injected asset, in order, under its file name. */
  function ChooseBackupContents(urls: seq<FilePath>, injected: seq<FilePath>): (r: BackupContents)
    ensures r.CopyOfInput? <==> InputZipPath(urls).Some?
    ensures r.CopyOfInput? ==> r.source == urls[0]
    ensures r.ArchiveOf? ==>
      && |r.entries| == |injected|
      && (forall i :: 0 <= i < |injected| ==> r.entries[i].source == injected[i])
      && (forall i :: 0 <= i < |injected| ==> r.entries[i].name == LastComponent(injected[i]))
  {
    if InputZipPath(urls).Some? then CopyOfInput(urls[0]) else ArchiveOf(ArchiveEntries(injected))
  }
}

=== FILE: filters.dfy ===
/** The app-list filter tabs and the horizontal drag that cycles them. */
module AppFilters {

  /** The four tabs, in the order the segmented picker shows them. */
  datatype AppFilter = All | User | Troll | System

  /** A tab's place in the picker, counted from zero. */
  function Position(f: AppFilter): nat {
    match f
    case All => 0
    case User => 1
    case Troll => 2
    case System => 3
  }

  /** Width, in points, a drag must exceed to switch tabs. */
  const SwipeThreshold: real := 100.0

  /** A drag to the right moves one tab back, wrapping from the first to the last. */
  function SwipeRight(f: AppFilter): (r: AppFilter)
    ensures Position(r) == (Position(f) + 3) % 4
  {
    match f
    case All => System
    case User => All
    case Troll => User
    case System => Troll
  }

  /** A drag to the left moves one tab forward, wrapping from the last to the first. */
  function SwipeLeft(f: AppFilter): (r: AppFilter)
    ensures Position(r) == (Position(f) + 1) % 4
  {
    match f
    case All => User
    case User => Troll
    case Troll => System
    case System => All
  }

  /** The drag gesture's end handler: beyond the threshold to the right or
      left it switches tabs, otherwise the selection stays. */
  function OnDragEnded(selected: AppFilter, translationWidth: real): (r: AppFilter)
    ensures translationWidth > SwipeThreshold ==> Position(r) == (Position(selected) + 3) % 4
    ensures translationWidth < -SwipeThreshold ==> Position(r) == (Position(selected) + 1) % 4
    ensures -SwipeThreshold <= translationWidth <= SwipeThreshold ==> r == selected
  {
    if translationWidth > SwipeThreshold then SwipeRight(selected)
    else if translationWidth < -SwipeThreshold then SwipeLeft(selected)
    else selected
  }

  /** Left and right drags undo each other. */
  lemma SwipesAreInverse(f: AppFilter)
    ensures SwipeLeft(SwipeRight(f)) == f
    ensures SwipeRight(SwipeLeft(f)) == f
  {
  }

  /** Applying `step` `n` times. */
  function Repeat(step: AppFilter -> AppFilter, n: nat, f: AppFilter): AppFilter
    decreases n
  {
    if n == 0 then f else Repeat(step, n - 1, step(f))
  }

  /** Reducing the first summand modulo four does not change the sum modulo four. */
  lemma ModFourShift(a: nat, b: nat)
    ensures (a % 4 + b) % 4 == (a + b) % 4
  {
  }

  /** `n` drags to the left advance the tab `n` places around the cycle. */
  lemma {:induction false} RepeatedSwipeLeftPosition(n: nat, f: AppFilter)
    ensures Position(Repeat(SwipeLeft, n, f)) == (Position(f) + n) % 4
    decreases n
  {
    if n > 0 {
      RepeatedSwipeLeftPosition(n - 1, SwipeLeft(f));
      ModFourShift(Position(f) + 1, n - 1);
    }
  }

  /** `n` drags to the right move the tab back `n` places around the cycle. */
  lemma {:induction false} RepeatedSwipeRightPosition(n: nat, f: AppFilter)
    ensures Position(Repeat(SwipeRight, n, f)) == (Position(f) + 3 * n) % 4
    decreases n
  {
    if n > 0 {
      RepeatedSwipeRightPosition(n - 1, SwipeRight(f));
      ModFourShift(Position(f) + 3, 3 * (n - 1));
      assert Position(f) + 3 + 3 * (n - 1) == Position(f) + 3 * n;
    }
  }

  /** Four drags the same way return to the starting tab, and no fewer than
      four do. */
  lemma FourSwipesCycle(f: AppFilter)
    ensures Repeat(SwipeLeft, 4, f) == f && Repeat(SwipeRight, 4, f) == f
    ensures forall n :: 0 < n < 4 ==> Repeat(SwipeLeft, n, f) != f && Repeat(SwipeRight, n, f) != f
  {
  }
}

=== FILE: inbox.dfy ===
/** Files other apps hand over through "Open in…": the extension guard of
    the open-URL handler and the renaming of copies delivered to the
    documents inbox, which iOS suffixes with a number when a file of the
    same name is already there ("tweak-1.dylib"). */
module InboxUrls {
  import opened Outcomes
  import opened Strings
  import opened Paths

  const InboxMarker: string := "/Documents/Inbox/"

  /** `CharacterSet(charactersIn: "._- ")`. */
  predicate IsSeparator(c: char) {
    c == '.' || c == '_' || c == '-' || c == ' '
  }

  predicate NoSeparator(s: string) {
    forall i :: 0 <= i < |s| ==> !IsSeparator(s[i])
  }

  /** `components(separatedBy:)`: `s` cut at every separator; adjacent
      separators, or one at either end, give empty components. */
  function Components(s: string): (r: seq<string>)
    ensures |r| >= 1
    ensures forall i :: 0 <= i < |r| ==> NoSeparator(r[i])
    decreases |s|
  {
    if |s| == 0 then [""]
    else
      var init := Components(s[..|s| - 1]);
      var c := s[|s| - 1];
      if IsSeparator(c) then init + [""]
      else init[..|init| - 1] + [init[|init| - 1] + [c]]
  }

  /** The index of the last separator in `s`, if any. */
  function LastSeparator(s: string): (r: Option<nat>)
    ensures r.Some? ==> r.value < |s| && IsSeparator(s[r.value]) && NoSeparator(s[r.value + 1..])
    ensures r.None? ==> NoSeparator(s)
    decreases |s|
  {
    if |s| == 0 then None
    else if IsSeparator(s[|s| - 1]) then Some(|s| - 1)
    else
      var r := LastSeparator(s[..|s| - 1]);
      if r.Some? then
        assert s[r.value + 1..] == s[..|s| - 1][r.value + 1..] + [s[|s| - 1]];
        r
      else
        assert s == s[..|s| - 1] + [s[|s| - 1]];
        r
  }

  /** There is more than one component exactly when `s` has a separator,
      and the last component is what follows the last separator. */
  lemma {:induction false} ComponentsLast(s: string)
    ensures |Components(s)| > 1 <==> LastSeparator(s).Some?
    ensures LastSeparator(s).None? ==> Components(s)[|Components(s)| - 1] == s
    ensures LastSeparator(s).Some? ==> Components(s)[|Components(s)| - 1] == s[LastSeparator(s).value + 1..]
    decreases |s|
  {
    if |s| > 0 {
      var s' := s[..|s| - 1];
      var c := s[|s| - 1];
      ComponentsLast(s');
      if !IsSeparator(c) {
        assert s == s' + [c];
        if LastSeparator(s').Some? {
          var k := LastSeparator(s').value;
          assert s[k + 1..] == s'[k + 1..] + [c];
        }
      }
    }
  }

  /** A stem has at most one separator with none after it. */
  lemma TrailingSeparatorUnique(s: string, k: int)
    requires 0 <= k < |s| && IsSeparator(s[k]) && NoSeparator(s[k + 1..])
    ensures LastSeparator(s) == Some(k)
  {
  }

  /** The stem rewrite of `preprocessURL`, as written: split the stem, and
      if there are several components and the last is all digits (or
      empty), keep the prefix that leaves out the last component and one
      separator character. The new stem is the old one minus a trailing
      separator and the digits after it; when there is no such suffix the
      stem is left alone. */
  function RenamedStem(stem: string): (r: Option<string>)
    ensures r.Some? ==>
      && |r.value| < |stem|
      && stem[..|r.value|] == r.value
      && IsSeparator(stem[|r.value|])
      && AllDigits(stem[|r.value| + 1..])
    ensures r.None? ==>
      forall k :: 0 <= k < |stem| && IsSeparator(stem[k]) && NoSeparator(stem[k + 1..]) ==> !AllDigits(stem[k + 1..])
  {
    var comps := Components(stem);
    var lastComp := comps[|comps| - 1];
    ComponentsLast(stem);
    if |comps| > 1 && AllDigits(lastComp) then
      Some(stem[..|stem| - |lastComp| - 1])
    else
      assert forall k :: 0 <= k < |stem| && IsSeparator(stem[k]) && NoSeparator(stem[k + 1..]) ==> LastSeparator(stem) == Some(k) by {
        forall k | 0 <= k < |stem| && IsSeparator(stem[k]) && NoSeparator(stem[k + 1..]) {
          TrailingSeparatorUnique(stem, k);
        }
      }
      None
  }

  /** Stripping undoes the inbox's numbering: a base name, one separator and
      a run of digits comes back as the base name. That no other stem is
      rewritten is the `None` half of `RenamedStem`'s contract. */
  lemma RenamedStemStripsNumber(base: string, sep: char, digits: string)
    requires IsSeparator(sep) && AllDigits(digits)
    ensures RenamedStem(base + [sep] + digits) == Some(base)
  {
    var stem := base + [sep] + digits;
    assert stem[|base|] == sep;
    assert stem[|base| + 1..] == digits;
    assert NoSeparator(digits);
    TrailingSeparatorUnique(stem, |base|);
    ComponentsLast(stem);
    var comps := Components(stem);
    assert comps[|comps| - 1] == digits;
    assert stem[..|stem| - |digits| - 1] == base;
  }

  /** `preprocessURL`: outside the inbox, or when the stem has no numeric
      suffix, the URL is returned as is; otherwise a copy named with the
      shortened stem, in the same directory and with the same extension, is
      made (replacing any file of that name) and returned, unless the copy
      fails. `copySucceeds` is the outcome of that copy. */
  function PreprocessUrl(url: FilePath, copySucceeds: bool): (r: FilePath)
    ensures r.dir == url.dir && r.ext == url.ext
    ensures r != url <==> Contains(FullPath(url), InboxMarker) && RenamedStem(url.stem).Some? && copySucceeds
    ensures r != url ==> Some(r.stem) == RenamedStem(url.stem) && |r.stem| < |url.stem|
  {
    if !Contains(FullPath(url), InboxMarker) then url
    else
      match RenamedStem(url.stem)
      case None => url
      case Some(newStem) =>
        var newUrl := FilePath(url.dir, newStem, url.ext);
        if copySucceeds then newUrl else url
  }

  /** The guard of the open-URL handler: a file URL whose extension is
      `dylib` or `deb` in any case. */
  predicate AcceptsOpenedUrl(url: FilePath, isFileUrl: bool) {
    isFileUrl && Lower(url.ext) in {"dylib", "deb"}
  }

  /** The open-URL handler: the URL the selector sheet is opened with, or
      `None` when the URL is ignored. An accepted URL keeps its directory and
      extension, so what is opened is still a dylib or deb. */
  function OnOpenUrl(url: FilePath, isFileUrl: bool, copySucceeds: bool): (r: Option<FilePath>)
    ensures r.Some? <==> isFileUrl && (Lower(url.ext) == "dylib" || Lower(url.ext) == "deb")
    ensures r.Some? ==> r.value.dir == url.dir && Lower(r.value.ext) in {"dylib", "deb"}
  {
    if AcceptsOpenedUrl(url, isFileUrl) then Some(PreprocessUrl(url, copySucceeds)) else None
  }
}

=== FILE: inject.dfy ===
/** The injection screen's `inject()`: open an injector for the app, fill in
    missing identifiers, snapshot the current plug-ins into the backups
    folder, and only then inject. Every fallible file-system step is given
    its outcome in `World`; the steps the call performs are returned as a
    trace of effects. */
module InjectFlow {
  import opened Outcomes
  import opened Paths
  import opened Backups

  /** What the app catalog knows about the target app. */
  datatype App = App(name: string, id: string, teamID: string, url: FilePath)

  /** The injector's identifiers and the log file it reports. */
  datatype Injector = Injector(appID: string, teamID: string, latestLogFile: Option<FilePath>)

  /** The outcome of every step the call cannot decide by itself. */
  datatype World = World(
    openInjector: Result<Injector, string>,
    documentsDirectory: string,
    backupDirectoryExists: bool,
    createDirectoryFailure: Option<string>,
    listing: Result<seq<FilePath>, string>,
    removeFailures: set<FilePath>,
    now: LocalTime,
    backupWriteFailure: Option<string>,
    injectedAssets: seq<FilePath>,
    injectFailure: Option<string>,
    logFileAfterInject: Option<FilePath>)

  datatype Effect =
    | CreateBackupDirectory(path: string)
    | RemoveBackup(file: FilePath)
    | WriteBackup(dest: FilePath, contents: BackupContents)
    | InjectAssets(assets: seq<FilePath>)

  /** Success carries the log file; failure carries the error's description
      and the log file when one was obtained. */
  datatype InjectResult = Succeeded(logFile: Option<FilePath>) | Failed(description: string, logFile: Option<FilePath>)

  /** The injector as configured (when it could be opened), the effects in
      the order they were issued, and the result. */
  datatype Trace = Trace(injector: Option<Injector>, effects: seq<Effect>, result: InjectResult)

  /** An identifier the injector already has is kept; an empty one is
      taken from the catalog. */
  function FillIfEmpty(current: string, fromCatalog: string): (r: string)
    ensures current != "" ==> r == current
    ensures current == "" ==> r == fromCatalog
    ensures r == "" <==> current == "" && fromCatalog == ""
  {
    if current == "" then fromCatalog else current
  }

  /** Filling is idempotent: a second pass changes nothing. */
  lemma FillIfEmptyIdempotent(current: string, fromCatalog: string)
    ensures FillIfEmpty(FillIfEmpty(current, fromCatalog), fromCatalog) == FillIfEmpty(current, fromCatalog)
  {
  }

  function Removals(targets: seq<FilePath>): (r: seq<Effect>)
    ensures |r| == |targets|
    ensures forall i :: 0 <= i < |r| ==> r[i] == RemoveBackup(targets[i])
  {
    seq(|targets|, i requires 0 <= i < |targets| => RemoveBackup(targets[i]))
  }

  /** The files the effects remove, in the order they are removed. */
  function RemovedFiles(effects: seq<Effect>): seq<FilePath> {
    if |effects| == 0 then []
    else (if effects[0].RemoveBackup? then [effects[0].file] else []) + RemovedFiles(effects[1..])
  }

  lemma {:induction false} RemovedFilesAppend(a: seq<Effect>, b: seq<Effect>)
    ensures RemovedFiles(a + b) == RemovedFiles(a) + RemovedFiles(b)
    decreases |a|
  {
    if |a| == 0 {
      assert a + b == b;
    } else {
      assert (a + b)[0] == a[0];
      assert (a + b)[1..] == a[1..] + b;
      RemovedFilesAppend(a[1..], b);
    }
  }

  /** Issuing one removal per target removes exactly the targets, in order. */
  lemma {:induction false} RemovedFilesOfRemovals(targets: seq<FilePath>)
    ensures RemovedFiles(Removals(targets)) == targets
    decreases |targets|
  {
    if |targets| > 0 {
      assert Removals(targets)[1..] == Removals(targets[1..]);
      RemovedFilesOfRemovals(targets[1..]);
    }
  }

  /** Each fallible step's outcome in the order the call runs them: opening
      the injector, creating the missing backups folder, listing it, writing
      the archive, injecting. `None` is a step that does not throw. */
  function StepOutcomes(w: World): seq<Option<string>> {
    [ if w.openInjector.Failure? then Some(w.openInjector.error) else None,
      if w.backupDirectoryExists then None else w.createDirectoryFailure,
      if w.listing.Failure? then Some(w.listing.error) else None,
      w.backupWriteFailure,
      w.injectFailure ]
  }

  /** The first step that throws, if any. */
  function FirstThrown(outcomes: seq<Option<string>>): (r: Option<string>)
    ensures r.None? <==> forall i :: 0 <= i < |outcomes| ==> outcomes[i].None?
  {
    if |outcomes| == 0 then None
    else if outcomes[0].Some? then outcomes[0]
    else FirstThrown(outcomes[1..])
  }

  /** Every step before injection succeeds. */
  predicate BackupStepsSucceed(w: World) {
    && w.openInjector.Success?
    && (w.backupDirectoryExists || w.createDirectoryFailure.None?)
    && w.listing.Success?
    && w.backupWriteFailure.None?
  }

  predicate WritesBackup(effects: seq<Effect>) {
    exists i :: 0 <= i < |effects| && effects[i].WriteBackup?
  }

  /** Creating the backups folder, when it happens, is the first effect and
      happens once; a backup write, when it happens, is followed by nothing
      but the injection. */
  predicate StepOrder(effects: seq<Effect>) {
    && (forall i :: 0 <= i < |effects| && effects[i].CreateBackupDirectory? ==> i == 0)
    && (forall i, j :: 0 <= i < j < |effects| && effects[i].WriteBackup? ==> effects[j].InjectAssets?)
  }

  predicate InjectionAttempted(effects: seq<Effect>) {
    exists i :: 0 <= i < |effects| && effects[i].InjectAssets?
  }

  /** The log file captured right after the injector was opened. */
  function LogFileBefore(w: World): Option<FilePath> {
    if w.openInjector.Success? then w.openInjector.value.latestLogFile else None
  }

  /** What the backup steps did: the effects issued and, if a step threw,
      its description. */
  datatype Phase = Phase(effects: seq<Effect>, failure: Option<string>)

  /** Pruning the listed backups, then writing the new archive. */
  function PruneAndWrite(app: App, urls: seq<FilePath>, w: World, files: seq<FilePath>): (effects: seq<Effect>)
    requires ValidTime(w.now)
    ensures |effects| > 0 && effects[|effects| - 1].WriteBackup?
    ensures effects[..|effects| - 1] == Removals(PruneTargets(files, app.name, InputZipPath(urls)))
    ensures forall i :: 0 <= i < |effects| ==> !effects[i].InjectAssets?
    ensures forall i :: 0 <= i < |effects| && effects[i].RemoveBackup? ==>
      effects[i].file in files && ShouldPrune(effects[i].file, app.name, InputZipPath(urls))
  {
    var removals := Removals(PruneTargets(files, app.name, InputZipPath(urls)));
    var dest := BackupFile(BackupDirectory(w.documentsDirectory), app.name, FormatTimestamp(w.now));
    removals + [WriteBackup(dest, ChooseBackupContents(urls, w.injectedAssets))]
  }

  /** The files pruned are exactly the listed files the prune rule selects,
      in listing order. */
  lemma PruneAndWriteRemovesTargets(app: App, urls: seq<FilePath>, w: World, files: seq<FilePath>)
    requires ValidTime(w.now)
    ensures RemovedFiles(PruneAndWrite(app, urls, w, files)) == PruneTargets(files, app.name, InputZipPath(urls))
  {
    var targets := PruneTargets(files, app.name, InputZipPath(urls));
    var effects := PruneAndWrite(app, urls, w, files);
    var n := |effects| - 1;
    assert effects == effects[..n] + [effects[n]];
    assert effects[..n] == Removals(targets);
    RemovedFilesAppend(effects[..n], [effects[n]]);
    RemovedFilesOfRemovals(targets);
    assert RemovedFiles([effects[n]]) == [];
  }

  /** The backup steps, run once the injector is open: create the backups
      folder if missing, list it, prune, then write the new archive. */
  function BackupPhase(app: App, urls: seq<FilePath>, w: World): (p: Phase)
    requires ValidTime(w.now)
    ensures p.failure.None? <==>
      (w.backupDirectoryExists || w.createDirectoryFailure.None?) && w.listing.Success? && w.backupWriteFailure.None?
    ensures forall i :: 0 <= i < |p.effects| ==> !p.effects[i].InjectAssets?
    ensures p.failure.None? ==> |p.effects| > 0 && p.effects[|p.effects| - 1].WriteBackup?
    ensures forall i :: 0 <= i < |p.effects| && p.effects[i].RemoveBackup? ==>
      && w.listing.Success?
      && p.effects[i].file in w.listing.value
      && ShouldPrune(p.effects[i].file, app.name, InputZipPath(urls))
  {
    var created := if w.backupDirectoryExists then [] else [CreateBackupDirectory(BackupDirectory(w.documentsDirectory))];
    if !w.backupDirectoryExists && w.createDirectoryFailure.Some? then
      Phase(created, w.createDirectoryFailure)
    else
      match w.listing
      case Failure(e) => Phase(created, Some(e))
      case Success(files) =>
        var rest := PruneAndWrite(app, urls, w, files);
        Phase(created + rest, w.backupWriteFailure)
  }

  function Inject(app: App, urls: seq<FilePath>, w: World): (r: Trace)
    requires ValidTime(w.now)
    ensures r.result.Succeeded? <==> BackupStepsSucceed(w) && w.injectFailure.None?
    ensures r.result.Succeeded? ==> r.result.logFile == w.logFileAfterInject
    ensures r.result.Failed? ==> r.result.logFile == LogFileBefore(w)
    ensures InjectionAttempted(r.effects) <==> BackupStepsSucceed(w)
    ensures forall i :: 0 <= i < |r.effects| && r.effects[i].InjectAssets? ==>
      && i == |r.effects| - 1
      && r.effects[i].assets == urls
      && 0 < i && r.effects[i - 1].WriteBackup?
    ensures forall i :: 0 <= i < |r.effects| && r.effects[i].RemoveBackup? ==>
      && w.listing.Success?
      && r.effects[i].file in w.listing.value
      && ShouldPrune(r.effects[i].file, app.name, InputZipPath(urls))
    ensures r.injector.Some? <==> w.openInjector.Success?
    ensures r.injector.Some? ==>
      && r.injector.value.appID == FillIfEmpty(w.openInjector.value.appID, app.id)
      && r.injector.value.teamID == FillIfEmpty(w.openInjector.value.teamID, app.teamID)
  {
    match w.openInjector
    case Failure(e) => Trace(None, [], Failed(e, None))
    case Success(found) =>
      var injector := Injector(FillIfEmpty(found.appID, app.id), FillIfEmpty(found.teamID, app.teamID), found.latestLogFile);
      var log := found.latestLogFile;
      var phase := BackupPhase(app, urls, w);
      if phase.failure.Some? then
        Trace(Some(injector), phase.effects, Failed(phase.failure.value, log))
      else
        var all := phase.effects + [InjectAssets(urls)];
        assert forall i :: 0 <= i < |phase.effects| ==> all[i] == phase.effects[i];
        assert all[|all| - 1].InjectAssets?;
        if w.injectFailure.Some? then Trace(Some(injector), all, Failed(w.injectFailure.value, log))
        else Trace(Some(injector), all, Succeeded(w.logFileAfterInject))
  }

  /** The backup steps stop at the first one that throws: the folder is
      created (first) iff it was missing, and the archive is written (last)
      iff the folder exists or was created and the listing succeeded. */
  lemma BackupPhaseStopsAtFirstThrow(app: App, urls: seq<FilePath>, w: World)
    requires ValidTime(w.now)
    ensures var e := BackupPhase(app, urls, w).effects;
      && StepOrder(e)
      && (|e| > 0 && e[0].CreateBackupDirectory? <==> !w.backupDirectoryExists)
      && (WritesBackup(e) <==> (w.backupDirectoryExists || w.createDirectoryFailure.None?) && w.listing.Success?)
  {
    var e := BackupPhase(app, urls, w).effects;
    var created := if w.backupDirectoryExists then [] else [CreateBackupDirectory(BackupDirectory(w.documentsDirectory))];
    if (w.backupDirectoryExists || w.createDirectoryFailure.None?) && w.listing.Success? {
      var rest := PruneAndWrite(app, urls, w, w.listing.value);
      PruneAndWriteShape(app, urls, w, w.listing.value);
      assert e == created + rest;
      CreateThenPrune(created, rest);
    } else {
      assert e == created;
    }
  }

  /** Only removals precede the write, which is the last effect. */
  lemma PruneAndWriteShape(app: App, urls: seq<FilePath>, w: World, files: seq<FilePath>)
    requires ValidTime(w.now)
    ensures var e := PruneAndWrite(app, urls, w, files);
      forall i :: 0 <= i < |e| ==> (e[i].RemoveBackup? <==> i < |e| - 1) && (e[i].WriteBackup? <==> i == |e| - 1)
  {
    var e := PruneAndWrite(app, urls, w, files);
    forall i | 0 <= i < |e| - 1
      ensures e[i].RemoveBackup?
    {
      assert e[i] == e[..|e| - 1][i];
    }
  }

  /** An optional folder creation followed by removals and a final write
      keeps the step order, and writes. */
  lemma CreateThenPrune(created: seq<Effect>, rest: seq<Effect>)
    requires |created| <= 1 && forall i :: 0 <= i < |created| ==> created[i].CreateBackupDirectory?
    requires forall i :: 0 <= i < |rest| ==> (rest[i].RemoveBackup? <==> i < |rest| - 1) && (rest[i].WriteBackup? <==> i == |rest| - 1)
    requires |rest| > 0
    ensures StepOrder(created + rest) && WritesBackup(created + rest)
    ensures |created + rest| > 0 && ((created + rest)[0].CreateBackupDirectory? <==> |created| == 1)
  {
    var e := created + rest;
    assert forall i :: |created| <= i < |e| ==> e[i] == rest[i - |created|];
    assert e[|e| - 1].WriteBackup?;
  }

  /** The whole call stops at the first step that throws: nothing happens
      when the injector cannot be opened; otherwise the backup steps run as
      `BackupPhaseStopsAtFirstThrow` states, and injection, if any, is the
      only effect after the write. */
  lemma InjectStopsAtFirstThrow(app: App, urls: seq<FilePath>, w: World)
    requires ValidTime(w.now)
    ensures w.openInjector.Failure? ==> Inject(app, urls, w).effects == []
    ensures var e := Inject(app, urls, w).effects;
      && StepOrder(e)
      && (|e| > 0 && e[0].CreateBackupDirectory? <==> w.openInjector.Success? && !w.backupDirectoryExists)
      && (WritesBackup(e) <==>
            w.openInjector.Success? && (w.backupDirectoryExists || w.createDirectoryFailure.None?) && w.listing.Success?)
  {
    if w.openInjector.Success? {
      var phase := BackupPhase(app, urls, w);
      BackupPhaseStopsAtFirstThrow(app, urls, w);
      if phase.failure.None? {
        var e := phase.effects + [InjectAssets(urls)];
        assert Inject(app, urls, w).effects == e;
        assert forall i :: 0 <= i < |phase.effects| ==> e[i] == phase.effects[i];
        assert WritesBackup(phase.effects) ==> WritesBackup(e);
      } else {
        assert Inject(app, urls, w).effects == phase.effects;
      }
    }
  }

  /** The backup steps remove exactly the prune targets once the folder
      exists or is created and is listed, and nothing otherwise. */
  lemma BackupPhaseRemovesTargets(app: App, urls: seq<FilePath>, w: World)
    requires ValidTime(w.now)
    ensures RemovedFiles(BackupPhase(app, urls, w).effects) ==
      if (w.backupDirectoryExists || w.createDirectoryFailure.None?) && w.listing.Success?
      then PruneTargets(w.listing.value, app.name, InputZipPath(urls))
      else []
  {
    var created := if w.backupDirectoryExists then [] else [CreateBackupDirectory(BackupDirectory(w.documentsDirectory))];
    assert RemovedFiles(created) == [];
    if (w.backupDirectoryExists || w.createDirectoryFailure.None?) && w.listing.Success? {
      var rest := PruneAndWrite(app, urls, w, w.listing.value);
      assert BackupPhase(app, urls, w).effects == created + rest;
      RemovedFilesAppend(created, rest);
      PruneAndWriteRemovesTargets(app, urls, w, w.listing.value);
    }
  }

  /** Once the injector is open and the backups folder exists or is created
      and is listed, every listed backup the prune rule selects is removed,
      in listing order, and nothing else; a call that stops earlier removes
      nothing. */
  lemma InjectRemovesExactlyPruneTargets(app: App, urls: seq<FilePath>, w: World)
    requires ValidTime(w.now)
    ensures RemovedFiles(Inject(app, urls, w).effects) ==
      if w.openInjector.Success? && (w.backupDirectoryExists || w.createDirectoryFailure.None?) && w.listing.Success?
      then PruneTargets(w.listing.value, app.name, InputZipPath(urls))
      else []
  {
    if w.openInjector.Success? {
      var phase := BackupPhase(app, urls, w);
      BackupPhaseRemovesTargets(app, urls, w);
      if phase.failure.None? {
        assert Inject(app, urls, w).effects == phase.effects + [InjectAssets(urls)];
        RemovedFilesAppend(phase.effects, [InjectAssets(urls)]);
      } else {
        assert Inject(app, urls, w).effects == phase.effects;
      }
    }
  }

  /** The listed files still in the backups folder after `effects`: those
      not removed, and those whose removal failed. */
  function ListedFilesLeft(w: World, effects: seq<Effect>): set<FilePath>
    requires w.listing.Success?
  {
    set f | f in w.listing.value && (f !in RemovedFiles(effects) || f in w.removeFailures)
  }

  /** What the call leaves of the listed backups is what the prune rule
      leaves, with the failed removals staying. */
  lemma InjectLeavesAfterPruning(app: App, urls: seq<FilePath>, w: World)
    requires ValidTime(w.now)
    requires w.openInjector.Success? && (w.backupDirectoryExists || w.createDirectoryFailure.None?) && w.listing.Success?
    ensures ListedFilesLeft(w, Inject(app, urls, w).effects) ==
      AfterPruning(w.listing.value, app.name, InputZipPath(urls), w.removeFailures)
  {
    InjectRemovesExactlyPruneTargets(app, urls, w);
  }

  /** A failed call reports the description of the first step that threw,
      in the order the call runs its steps. */
  lemma InjectReportsFirstThrown(app: App, urls: seq<FilePath>, w: World)
    requires ValidTime(w.now)
    ensures Inject(app, urls, w).result.Failed? <==> FirstThrown(StepOutcomes(w)).Some?
    ensures Inject(app, urls, w).result.Failed? ==>
      Some(Inject(app, urls, w).result.description) == FirstThrown(StepOutcomes(w))
  {
    FirstThrownOfFive(StepOutcomes(w));
  }

  lemma FirstThrownOfFive(o: seq<Option<string>>)
    requires |o| == 5
    ensures FirstThrown(o) ==
      if o[0].Some? then o[0] else if o[1].Some? then o[1] else if o[2].Some? then o[2]
      else if o[3].Some? then o[3] else o[4]
  {
    var o1 := o[1..];
    var o2 := o1[1..];
    var o3 := o2[1..];
    var o4 := o3[1..];
    assert o4[1..] == [] && o4[0] == o[4];
    assert FirstThrown(o4) == o[4];
    assert o3[0] == o[3] && FirstThrown(o3) == if o[3].Some? then o[3] else o[4];
    assert o2[0] == o[2] && FirstThrown(o2) == if o[2].Some? then o[2] else FirstThrown(o3);
    assert o1[0] == o[1] && FirstThrown(o1) == if o[1].Some? then o[1] else FirstThrown(o2);
  }

  /** `removeItem` errors are swallowed: which removals fail changes
      neither the effects nor the result. */
  lemma RemoveFailuresIgnored(app: App, urls: seq<FilePath>, w: World, failures: set<FilePath>)
    requires ValidTime(w.now)
    ensures Inject(app, urls, w.(removeFailures := failures)) == Inject(app, urls, w)
  {
  }

  /** The new archive is written into the backups folder under the app's
      name and the formatted time, and holds either the zip being injected
      or the app's current plug-ins. */
  lemma BackupWrittenBeforeInjection(app: App, urls: seq<FilePath>, w: World)
    requires ValidTime(w.now)
    requires BackupStepsSucceed(w)
    ensures var r := Inject(app, urls, w);
      && |r.effects| >= 2
      && r.effects[|r.effects| - 1] == InjectAssets(urls)
      && r.effects[|r.effects| - 2] ==
           WriteBackup(BackupFile(BackupDirectory(w.documentsDirectory), app.name, FormatTimestamp(w.now)),
                       ChooseBackupContents(urls, w.injectedAssets))
  {
  }
}

=== FILE: outcomes.dfy ===
/** Failure-carrying values returned throughout the model: an optional value
    and a value-or-error, the Dafny counterparts of Swift's `Optional` and of a
    `throws` function's two exits. */
module Outcomes {

  datatype Option<+T> = None | Some(value: T)

  datatype Result<+T, +E> = Success(value: T) | Failure(error: E)
}

=== FILE: paths.dfy ===
/** File URLs as the rest of the model sees them. */
module Paths {

  /** A file URL decomposed the way Foundation reports it: the parent
      directory's path (without a trailing slash), the last path component
      without its extension (`deletingPathExtension().lastPathComponent`), and
      the extension (`pathExtension`, empty when there is none). */
  datatype FilePath = FilePath(dir: string, stem: string, ext: string)

  /** `lastPathComponent`: the stem, then a dot and the extension if there is one. */
  function LastComponent(p: FilePath): string {
    if p.ext == "" then p.stem else p.stem + "." + p.ext
  }

  /** `path`: the directory, a slash and the last component. */
  function FullPath(p: FilePath): string {
    p.dir + "/" + LastComponent(p)
  }

  /** `dir.appendingPathComponent(p.lastPathComponent)`: the same file name in another directory. */
  function InDirectory(dir: string, p: FilePath): (r: FilePath)
    ensures r.dir == dir
    ensures LastComponent(r) == LastComponent(p)
    ensures r.ext == p.ext
  {
    FilePath(dir, p.stem, p.ext)
  }
}

=== FILE: preprocess.dfy ===
/** The plug-in preprocessor of `InjectorV3.preprocessAssets`: every input
    is routed by its lower-cased extension (zip archive, Debian package, loose
    bundle/dylib/framework, or skipped), expanded into staged assets plus the
    ones to record as injected by this tool, then the ignore list is applied
    and an empty result is an error.

    Unzipping, deb decomposition, directory listing and copying are not
    modelled: each input carries the entries its container yields (in the
    order the file system lists them) and, when the file-system step throws,
    the reason. The staging directory is represented by the names the loop
    has copied into it, so a second loose copy under a taken name throws.
    `checkIsBundle`, the ignore list and the metadata write are parameters
    in `Env`. */
module Preprocess {
  import opened Outcomes
  import opened Strings
  import opened Seqs
  import opened Paths

  /** Extensions (lower case) that a plug-in may carry. */
  const AllowedExtensions: set<string> := {"bundle", "dylib", "framework"}

  /** The localisation key of the error thrown when nothing is left; the
      text shown to the user is its translation for the device language. */
  const NoValidPlugInsMessage: string := "No valid plug-ins found."

  /** How an input is handled, decided once from its extension. */
  datatype InputKind = ZipArchive | DebPackage | LooseAsset | Skipped

  /** One asset URL handed to the preprocessor. `extracted` is what unzipping
      (then listing the top level) or decomposing (then walking the tree)
      yields; it is unused for loose files. `ioFailure` is the reason the
      input's file-system step threw, if it did. */
  datatype AssetInput = AssetInput(url: FilePath, extracted: seq<FilePath>, ioFailure: Option<string>)

  /** What the preprocessor consults beyond its inputs: the staging
      directory, the bundle test, the names never to be managed, and the
      reason the metadata write throws, if it does. */
  datatype Env = Env(
    temporaryDirectory: string,
    checkIsBundle: FilePath -> bool,
    ignoredNames: set<string>,
    markFailure: Option<string>)

  /** Staged assets and, among them, the ones to mark as injected. */
  datatype Staged = Staged(prepared: seq<FilePath>, toMark: seq<FilePath>)

  datatype PreprocessError =
    | IoError(reason: string)
    | DestinationExists(name: string)
    | MarkFailed(reason: string)
    | NoValidPlugIns(message: string)

  /** A whole call: the list handed to the metadata store (`None` when the
      call threw before reaching it) and what the call returns or throws. */
  datatype Run = Run(marked: Option<seq<FilePath>>, result: Result<seq<FilePath>, PreprocessError>)

  function KindOf(ext: string): (k: InputKind)
    ensures k == ZipArchive <==> Lower(ext) == "zip"
    ensures k == DebPackage <==> Lower(ext) == "deb"
    ensures k == LooseAsset <==> Lower(ext) in AllowedExtensions
  {
    var e := Lower(ext);
    if e == "zip" then ZipArchive
    else if e == "deb" then DebPackage
    else if e in AllowedExtensions then LooseAsset
    else Skipped
  }

  /** Routing ignores case: two extensions that lower-case alike are routed alike. */
  lemma KindIgnoresCase(a: string, b: string)
    requires Lower(a) == Lower(b)
    ensures KindOf(a) == KindOf(b)
    ensures KindOf(a) == KindOf(Lower(a))
  {
    LowerIdempotent(a);
  }

  predicate Allowed(p: FilePath) {
    Lower(p.ext) in AllowedExtensions
  }

  predicate IsDylibOrFramework(p: FilePath) {
    var e := Lower(p.ext);
    e == "dylib" || e == "framework"
  }

  predicate HasBundleExtension(p: FilePath) {
    Lower(p.ext) == "bundle"
  }

  /** In `s`, no bundle comes before a dylib or framework. */
  ghost predicate BundlesAfterDylibs(s: seq<FilePath>) {
    forall i, j :: 0 <= i < |s| && 0 <= j < |s| && HasBundleExtension(s[i]) && IsDylibOrFramework(s[j]) ==> j < i
  }

  /** Every asset to be marked is also staged. */
  ghost predicate MarksWithin(s: Staged) {
    forall x :: x in s.toMark ==> x in s.prepared
  }

  function Join(a: Staged, b: Staged): Staged {
    Staged(a.prepared + b.prepared, a.toMark + b.toMark)
  }

  /** Zip archive: the allowed top-level entries, the bundles among them marked. */
  function ZipItems(env: Env, entries: seq<FilePath>): Staged {
    var kept := Filter(Allowed, entries);
    Staged(kept, Filter(env.checkIsBundle, kept))
  }

  /** Debian package: dylibs and frameworks first, then bundles, all bundles marked. */
  function DebItems(entries: seq<FilePath>): Staged {
    var bundles := Filter(HasBundleExtension, entries);
    Staged(Filter(IsDylibOrFramework, entries) + bundles, bundles)
  }

  /** Loose asset: its copy in the staging directory, marked if it is a bundle. */
  function LooseItem(env: Env, url: FilePath): Staged {
    var copied := InDirectory(env.temporaryDirectory, url);
    Staged([copied], if env.checkIsBundle(copied) then [copied] else [])
  }

  /** One iteration of the loop over the inputs, given the names already
      copied into the staging directory (`present`). The copy of a loose
      asset throws when its file name is taken. */
  function Expand(env: Env, input: AssetInput, present: set<string>): (r: Result<Staged, PreprocessError>)
    ensures r.Success? ==> MarksWithin(r.value)
    ensures r.Failure? <==>
      KindOf(input.url.ext) != Skipped
      && (input.ioFailure.Some? || (KindOf(input.url.ext) == LooseAsset && LastComponent(input.url) in present))
    ensures r.Failure? && input.ioFailure.Some? ==> r.error == IoError(input.ioFailure.value)
    ensures r.Failure? && input.ioFailure.None? ==> r.error == DestinationExists(LastComponent(input.url))
  {
    var kind := KindOf(input.url.ext);
    if kind == Skipped then Success(Staged([], []))
    else if input.ioFailure.Some? then Failure(IoError(input.ioFailure.value))
    else if kind == ZipArchive then Success(ZipItems(env, input.extracted))
    else if kind == DebPackage then Success(DebItems(input.extracted))
    else if LastComponent(input.url) in present then Failure(DestinationExists(LastComponent(input.url)))
    else Success(LooseItem(env, input.url))
  }

  /** An input whose extension is none of zip, deb, bundle, dylib, framework
      (in any case) contributes nothing and raises nothing. */
  lemma SkippedInputContributesNothing(env: Env, input: AssetInput, present: set<string>)
    requires Lower(input.url.ext) !in {"zip", "deb", "bundle", "dylib", "framework"}
    ensures Expand(env, input, present) == Success(Staged([], []))
  {
  }

  /** From a zip, exactly the entries with an allowed extension are staged,
      every occurrence of them; an entry is marked iff it is staged and
      passes the bundle test. */
  lemma ZipKeepsAllowedEntries(env: Env, input: AssetInput, present: set<string>)
    requires KindOf(input.url.ext) == ZipArchive && input.ioFailure.None?
    ensures Expand(env, input, present).Success?
    ensures var s := Expand(env, input, present).value;
      && (forall x :: x in s.prepared <==> x in input.extracted && Lower(x.ext) in AllowedExtensions)
      && (forall x :: multiset(s.prepared)[x] == if Allowed(x) then multiset(input.extracted)[x] else 0)
      && (forall x :: x in s.toMark <==> x in s.prepared && env.checkIsBundle(x))
  {
    FilterCount(Allowed, input.extracted);
  }

  /** From a deb, every dylib or framework comes before every bundle; the
      staged set is exactly its dylib, framework and bundle entries; exactly
      the bundles are marked. */
  lemma DebPutsBundlesLast(env: Env, input: AssetInput, present: set<string>)
    requires KindOf(input.url.ext) == DebPackage && input.ioFailure.None?
    ensures Expand(env, input, present).Success?
    ensures var s := Expand(env, input, present).value;
      && BundlesAfterDylibs(s.prepared)
      && (forall x :: x in s.prepared <==> x in input.extracted && (IsDylibOrFramework(x) || HasBundleExtension(x)))
      && (forall x :: x in s.toMark <==> x in input.extracted && HasBundleExtension(x))
  {
  }

  /** A loose asset with an allowed extension yields exactly its copy in the
      staging directory, under the same file name, marked iff it is a bundle,
      provided that name is still free there. */
  lemma LooseYieldsItsCopy(env: Env, input: AssetInput, present: set<string>)
    requires KindOf(input.url.ext) == LooseAsset && input.ioFailure.None?
    requires LastComponent(input.url) !in present
    ensures Expand(env, input, present).Success?
    ensures var s := Expand(env, input, present).value;
      && |s.prepared| == 1
      && s.prepared[0].dir == env.temporaryDirectory
      && LastComponent(s.prepared[0]) == LastComponent(input.url)
      && (env.checkIsBundle(s.prepared[0]) ==> s.toMark == s.prepared)
      && (!env.checkIsBundle(s.prepared[0]) ==> s.toMark == [])
  {
  }

  /** The names the loop copies into the staging directory for `inputs`:
      the file names of the loose assets among them. */
  function CopiedNames(inputs: seq<AssetInput>): set<string>
    decreases |inputs|
  {
    if |inputs| == 0 then {}
    else
      var last := inputs[|inputs| - 1];
      CopiedNames(inputs[..|inputs| - 1])
        + (if KindOf(last.url.ext) == LooseAsset then {LastComponent(last.url)} else {})
  }

  /** The copied names of a concatenation are those of its parts. */
  lemma {:induction false} CopiedNamesAppend(a: seq<AssetInput>, b: seq<AssetInput>)
    ensures CopiedNames(a + b) == CopiedNames(a) + CopiedNames(b)
    decreases |b|
  {
    if |b| == 0 {
      assert a + b == a;
    } else {
      var ab := a + b;
      assert ab[..|ab| - 1] == a + b[..|b| - 1];
      assert ab[|ab| - 1] == b[|b| - 1];
      CopiedNamesAppend(a, b[..|b| - 1]);
    }
  }

  /** The loop over all inputs, in order; the first input whose file-system
      step throws ends it with that error. */
  function StageAll(env: Env, inputs: seq<AssetInput>): (r: Result<Staged, PreprocessError>)
    ensures r.Success? ==> MarksWithin(r.value)
    ensures r.Failure? ==> r.error.IoError? || r.error.DestinationExists?
    decreases |inputs|
  {
    if |inputs| == 0 then Success(Staged([], []))
    else
      var init := inputs[..|inputs| - 1];
      match StageAll(env, init)
      case Failure(e) => Failure(e)
      case Success(acc) =>
        match Expand(env, inputs[|inputs| - 1], CopiedNames(init))
        case Failure(e) => Failure(e)
        case Success(s) => Success(Join(acc, s))
  }

  /** Whether the step for the `i`-th input throws, given the names the
      inputs before it copied. */
  predicate StepFails(env: Env, inputs: seq<AssetInput>, i: nat)
    requires i < |inputs|
  {
    Expand(env, inputs[i], CopiedNames(inputs[..i])).Failure?
  }

  /** A step's outcome depends only on the inputs up to it. */
  lemma StepFailsPrefix(env: Env, inputs: seq<AssetInput>, k: nat, i: nat)
    requires i < k <= |inputs|
    ensures StepFails(env, inputs[..k], i) == StepFails(env, inputs, i)
  {
    assert inputs[..k][i] == inputs[i];
    assert inputs[..k][..i] == inputs[..i];
  }

  /** The loop fails iff some input's file-system step throws. */
  lemma {:induction false} StageAllFailsIff(env: Env, inputs: seq<AssetInput>)
    ensures StageAll(env, inputs).Failure? <==> exists i :: 0 <= i < |inputs| && StepFails(env, inputs, i)
    decreases |inputs|
  {
    if |inputs| > 0 {
      var n := |inputs| - 1;
      var init := inputs[..n];
      StageAllFailsIff(env, init);
      StageAllSnoc(env, init, inputs[n]);
      assert init + [inputs[n]] == inputs;
      assert StepFails(env, inputs, n) == Expand(env, inputs[n], CopiedNames(init)).Failure?;
      if exists i :: 0 <= i < n && StepFails(env, init, i) {
        var i :| 0 <= i < n && StepFails(env, init, i);
        StepFailsPrefix(env, inputs, n, i);
      }
      if exists i :: 0 <= i < n && StepFails(env, inputs, i) {
        var i :| 0 <= i < n && StepFails(env, inputs, i);
        StepFailsPrefix(env, inputs, n, i);
      }
    }
  }

  /** One more input: the loop's step, and the name it adds to the staging
      directory. */
  lemma StageAllSnoc(env: Env, inputs: seq<AssetInput>, x: AssetInput)
    ensures StageAll(env, inputs + [x]) ==
      match StageAll(env, inputs)
      case Failure(e) => Failure(e)
      case Success(acc) =>
        match Expand(env, x, CopiedNames(inputs))
        case Failure(e) => Failure(e)
        case Success(s) => Success(Join(acc, s))
    ensures CopiedNames(inputs + [x]) ==
      CopiedNames(inputs) + (if KindOf(x.url.ext) == LooseAsset then {LastComponent(x.url)} else {})
  {
    assert (inputs + [x])[..|inputs|] == inputs;
    assert (inputs + [x])[|inputs|] == x;
  }

  /** Outputs follow input order: staging a concatenation of input lists
      stages the first list's items before the second's, and succeeds iff
      both parts succeed and no loose asset of the second part has the file
      name of one copied by the first. */
  lemma {:induction false} StageAllAppend(env: Env, a: seq<AssetInput>, b: seq<AssetInput>)
    ensures StageAll(env, a + b).Success? <==>
      StageAll(env, a).Success? && StageAll(env, b).Success? && CopiedNames(a) !! CopiedNames(b)
    ensures StageAll(env, a + b).Success? ==>
      StageAll(env, a + b).value == Join(StageAll(env, a).value, StageAll(env, b).value)
    decreases |b|
  {
    if |b| == 0 {
      assert a + b == a;
      if StageAll(env, a).Success? {
        var x := StageAll(env, a).value;
        assert x.prepared + [] == x.prepared && x.toMark + [] == x.toMark;
      }
    } else {
      var ab := a + b;
      var init := b[..|b| - 1];
      var last := b[|b| - 1];
      assert ab[..|ab| - 1] == a + init;
      assert ab[|ab| - 1] == last;
      StageAllAppend(env, a, init);
      CopiedNamesAppend(a, init);
      var left := StageAll(env, a + init);
      var e := Expand(env, last, CopiedNames(a + init));
      var mid := StageAll(env, init);
      var f := Expand(env, last, CopiedNames(init));
      assert StageAll(env, ab) == if left.Failure? then left else if e.Failure? then e else Success(Join(left.value, e.value));
      assert StageAll(env, b) == if mid.Failure? then mid else if f.Failure? then f else Success(Join(mid.value, f.value));
      if left.Success? && e.Success? {
        JoinAssociative(StageAll(env, a).value, mid.value, e.value);
      }
    }
  }

  lemma JoinAssociative(x: Staged, y: Staged, z: Staged)
    ensures Join(Join(x, y), z) == Join(x, Join(y, z))
  {
  }

  /** Once an input list fails, appending more inputs keeps the same error:
      the first failure decides. */
  lemma {:induction false} StageAllFailureSticks(env: Env, a: seq<AssetInput>, b: seq<AssetInput>)
    requires StageAll(env, a).Failure?
    ensures StageAll(env, a + b) == StageAll(env, a)
    decreases |b|
  {
    if |b| == 0 {
      assert a + b == a;
    } else {
      var ab := a + b;
      assert ab[..|ab| - 1] == a + b[..|b| - 1];
      StageAllFailureSticks(env, a, b[..|b| - 1]);
    }
  }

  /** Two loose assets with the same file name (the same asset given twice,
      or two from different folders) cannot both be copied: the second copy
      throws, so the call fails before anything is marked. */
  lemma SameNameLooseCopiesCollide(env: Env, x: AssetInput, y: AssetInput)
    requires KindOf(x.url.ext) == LooseAsset && x.ioFailure.None?
    requires KindOf(y.url.ext) == LooseAsset && y.ioFailure.None?
    requires LastComponent(x.url) == LastComponent(y.url)
    ensures StageAll(env, [x, y]) == Failure(DestinationExists(LastComponent(y.url)))
    ensures PreprocessAssets(env, [x, y]) == Run(None, Failure(DestinationExists(LastComponent(y.url))))
  {
    assert [x][..0] == [];
    assert [x][0] == x;
    assert CopiedNames([x]) == {LastComponent(x.url)};
    assert StageAll(env, [x]).Success?;
    assert [x, y][..1] == [x];
  }

  /** The file-name test of the final `removeAll(where:)`. */
  function NotIgnored(ignored: set<string>): FilePath -> bool {
    (p: FilePath) => LastComponent(p) !in ignored
  }

  /** The whole preprocessing call. Marking is issued with the unfiltered
      mark list before the ignore list is applied and before the emptiness
      check, so a call that fails for lack of plug-ins has already marked. */
  function PreprocessAssets(env: Env, inputs: seq<AssetInput>): (r: Run)
    ensures r.marked.Some? <==> StageAll(env, inputs).Success?
    ensures r.marked.Some? ==> r.marked.value == StageAll(env, inputs).value.toMark
    ensures r.marked.Some? ==> forall x :: x in r.marked.value ==> x in StageAll(env, inputs).value.prepared
    ensures r.result.Success? ==>
      && StageAll(env, inputs).Success?
      && env.markFailure.None?
      && |r.result.value| > 0
      && (forall x :: x in r.result.value <==>
            x in StageAll(env, inputs).value.prepared && LastComponent(x) !in env.ignoredNames)
    ensures r.result.Failure? && r.result.error.NoValidPlugIns? <==>
      && StageAll(env, inputs).Success?
      && env.markFailure.None?
      && forall x :: x in StageAll(env, inputs).value.prepared ==> LastComponent(x) in env.ignoredNames
    ensures r.result.Failure? && r.result.error.NoValidPlugIns? ==> r.result.error.message == NoValidPlugInsMessage
    ensures r.result.Failure? && r.result.error.MarkFailed? <==> StageAll(env, inputs).Success? && env.markFailure.Some?
    ensures StageAll(env, inputs).Failure? ==> r.result == Failure(StageAll(env, inputs).error)
    ensures r.result.Success? ==> r.result.value == RemoveIgnored(env.ignoredNames, StageAll(env, inputs).value.prepared)
    ensures (StageAll(env, inputs).Success? && env.markFailure.None?
             && |RemoveIgnored(env.ignoredNames, StageAll(env, inputs).value.prepared)| > 0) ==> r.result.Success?
    ensures r.result.Failure? && r.result.error.MarkFailed? ==> r.result.error.reason == env.markFailure.value
  {
    match StageAll(env, inputs)
    case Failure(e) => Run(None, Failure(e))
    case Success(s) =>
      if env.markFailure.Some? then Run(Some(s.toMark), Failure(MarkFailed(env.markFailure.value)))
      else
        var kept := RemoveIgnored(env.ignoredNames, s.prepared);
        if |kept| == 0 then Run(Some(s.toMark), Failure(NoValidPlugIns(NoValidPlugInsMessage)))
        else
          assert kept[0] in kept;
          Run(Some(s.toMark), Success(kept))
  }

  /** The final `removeAll(where:)`: the staged list without the ignored
      file names. Every occurrence of a non-ignored item is kept and no
      ignored one. */
  function RemoveIgnored(ignored: set<string>, prepared: seq<FilePath>): (r: seq<FilePath>)
    ensures forall x :: multiset(r)[x] == if LastComponent(x) in ignored then 0 else multiset(prepared)[x]
  {
    FilterCount(NotIgnored(ignored), prepared);
    Filter(NotIgnored(ignored), prepared)
  }

  /** Removing ignored names keeps the staged order: it splits over any
      split of the staged list. */
  lemma RemoveIgnoredKeepsOrder(ignored: set<string>, a: seq<FilePath>, b: seq<FilePath>)
    ensures RemoveIgnored(ignored, a + b) == RemoveIgnored(ignored, a) + RemoveIgnored(ignored, b)
  {
    FilterAppend(NotIgnored(ignored), a, b);
  }

  /** The marking loop over a zip's kept items: the items passing the bundle
      test, in order. */
  method SelectBundles(checkIsBundle: FilePath -> bool, items: seq<FilePath>) returns (marks: seq<FilePath>)
    ensures marks == Filter(checkIsBundle, items)
  {
    marks := [];
    var k := 0;
    while k < |items|
      invariant 0 <= k <= |items|
      invariant marks == Filter(checkIsBundle, items[..k])
    {
      FilterSnoc(checkIsBundle, items[..k], items[k]);
      assert items[..k + 1] == items[..k] + [items[k]];
      if checkIsBundle(items[k]) {
        marks := marks + [items[k]];
      }
      k := k + 1;
    }
    assert items[..k] == items;
  }

  /** The enumeration loop over a decomposed package: one pass sorting
      dylibs and frameworks into one list and bundles into another, each in
      walk order. */
  method PartitionDebEntries(entries: seq<FilePath>) returns (dylibFiles: seq<FilePath>, bundleFiles: seq<FilePath>)
    ensures dylibFiles == Filter(IsDylibOrFramework, entries)
    ensures bundleFiles == Filter(HasBundleExtension, entries)
  {
    dylibFiles, bundleFiles := [], [];
    var k := 0;
    while k < |entries|
      invariant 0 <= k <= |entries|
      invariant dylibFiles == Filter(IsDylibOrFramework, entries[..k])
      invariant bundleFiles == Filter(HasBundleExtension, entries[..k])
    {
      var file := entries[k];
      assert entries[..k + 1] == entries[..k] + [file];
      FilterSnoc(IsDylibOrFramework, entries[..k], file);
      FilterSnoc(HasBundleExtension, entries[..k], file);
      if IsDylibOrFramework(file) {
        dylibFiles := dylibFiles + [file];
      }
      if HasBundleExtension(file) {
        bundleFiles := bundleFiles + [file];
      }
      k := k + 1;
    }
    assert entries[..k] == entries;
  }

  /** One pass of the loop body: the branch on the input's kind, with the
      zip marking loop and the package walk, and the copy of a loose asset
      into the staging directory, whose taken names are `present`. */
  method StageOne(env: Env, input: AssetInput, present: set<string>) returns (r: Result<Staged, PreprocessError>)
    ensures r == Expand(env, input, present)
  {
    var kind := KindOf(input.url.ext);
    if kind == Skipped {
      return Success(Staged([], []));
    }
    if input.ioFailure.Some? {
      return Failure(IoError(input.ioFailure.value));
    }
    if kind == ZipArchive {
      var extractedItems := Filter(Allowed, input.extracted);
      var marks := SelectBundles(env.checkIsBundle, extractedItems);
      return Success(Staged(extractedItems, marks));
    } else if kind == DebPackage {
      var dylibFiles, bundleFiles := PartitionDebEntries(input.extracted);
      return Success(Staged(dylibFiles + bundleFiles, bundleFiles));
    }
    var name := LastComponent(input.url);
    if name in present {
      return Failure(DestinationExists(name));
    }
    var copied := InDirectory(env.temporaryDirectory, input.url);
    var marks := if env.checkIsBundle(copied) then [copied] else [];
    return Success(Staged([copied], marks));
  }

  /** `preprocessAssets` as the source writes it: one loop appending to the
      prepared and to-mark lists, early exit on the first file-system error,
      then marking, the ignore filter and the emptiness check. It computes
      exactly the functional description above. */
  method PreprocessAssetsLoop(env: Env, inputs: seq<AssetInput>) returns (r: Run)
    ensures r == PreprocessAssets(env, inputs)
  {
    var prepared: seq<FilePath> := [];
    var toMark: seq<FilePath> := [];
    var present: set<string> := {};
    var i := 0;
    while i < |inputs|
      invariant 0 <= i <= |inputs|
      invariant StageAll(env, inputs[..i]) == Success(Staged(prepared, toMark))
      invariant present == CopiedNames(inputs[..i])
    {
      var input := inputs[i];
      assert inputs[..i + 1] == inputs[..i] + [input];
      StageAllSnoc(env, inputs[..i], input);
      var step := StageOne(env, input, present);
      if step.Failure? {
        StageAllFailureSticks(env, inputs[..i + 1], inputs[i + 1..]);
        assert inputs[..i + 1] + inputs[i + 1..] == inputs;
        return Run(None, Failure(step.error));
      }
      prepared, toMark := prepared + step.value.prepared, toMark + step.value.toMark;
      if KindOf(input.url.ext) == LooseAsset {
        present := present + {LastComponent(input.url)};
      }
      i := i + 1;
    }
    assert inputs[..i] == inputs;
    if env.markFailure.Some? {
      return Run(Some(toMark), Failure(MarkFailed(env.markFailure.value)));
    }
    var kept := RemoveIgnored(env.ignoredNames, prepared);
    if |kept| == 0 {
      return Run(Some(toMark), Failure(NoValidPlugIns(NoValidPlugInsMessage)));
    }
    return Run(Some(toMark), Success(kept));
  }
}

=== FILE: seqs.dfy ===
/** Order-preserving filtering of sequences, the shape of Swift's `filter`
    and `removeAll(where:)`. */
module Seqs {

  /** The elements of `s` that satisfy `p`, in their order in `s`. */
  function Filter<T(!new)>(p: T -> bool, s: seq<T>): (r: seq<T>)
    ensures |r| <= |s|
    ensures forall i :: 0 <= i < |r| ==> p(r[i])
    ensures forall x :: x in r <==> x in s && p(x)
    decreases |s|
  {
    if |s| == 0 then []
    else
      assert s == [s[0]] + s[1..];
      (if p(s[0]) then [s[0]] else []) + Filter(p, s[1..])
  }

  /** Filtering distributes over concatenation: what survives from an earlier
      part comes before what survives from a later part. */
  lemma {:induction false} FilterAppend<T(!new)>(p: T -> bool, a: seq<T>, b: seq<T>)
    ensures Filter(p, a + b) == Filter(p, a) + Filter(p, b)
    decreases |a|
  {
    if |a| == 0 {
      assert a + b == b;
    } else {
      assert (a + b)[0] == a[0];
      assert (a + b)[1..] == a[1..] + b;
      FilterAppend(p, a[1..], b);
    }
  }

  /** Filtering a sequence extended by one element extends the result by
      that element exactly when it satisfies `p`. */
  lemma FilterSnoc<T(!new)>(p: T -> bool, s: seq<T>, x: T)
    ensures Filter(p, s + [x]) == Filter(p, s) + (if p(x) then [x] else [])
  {
    FilterAppend(p, s, [x]);
    assert [x][1..] == [];
  }

  /** Filtering keeps every occurrence of an element that satisfies `p` and
      drops every occurrence of one that does not. */
  lemma {:induction false} FilterCount<T(!new)>(p: T -> bool, s: seq<T>)
    ensures forall x :: multiset(Filter(p, s))[x] == if p(x) then multiset(s)[x] else 0
    decreases |s|
  {
    if |s| > 0 {
      FilterCount(p, s[1..]);
      assert s == [s[0]] + s[1..];
      assert multiset(s) == multiset([s[0]]) + multiset(s[1..]);
    }
  }
}

=== FILE: strings.dfy ===
/** String helpers shared by the model: ASCII lower-casing, substring search
    and digit tests. Strings are sequences of characters. */
module Strings {

  /** An ASCII upper-case letter. */
  predicate IsUpper(c: char) {
    'A' <= c <= 'Z'
  }

  function LowerChar(c: char): char {
    if IsUpper(c) then (c as int + 32) as char else c
  }

  /** Swift's `lowercased()`, on ASCII letters; every other character is kept. */
  function Lower(s: string): (r: string)
    ensures |r| == |s|
    ensures forall i :: 0 <= i < |s| ==> r[i] == LowerChar(s[i])
  {
    seq(|s|, i requires 0 <= i < |s| => LowerChar(s[i]))
  }

  /** Lower-casing twice is lower-casing once, so comparing `Lower(e)` against
      a lower-case literal is a case-insensitive comparison. */
  lemma LowerIdempotent(s: string)
    ensures Lower(Lower(s)) == Lower(s)
  {
  }

  /** `t` occurs in `s` starting at index `i`. */
  ghost predicate OccursAt(s: string, t: string, i: int) {
    0 <= i && i + |t| <= |s| && s[i..i + |t|] == t
  }

  /** Swift's `String.contains(_:)` for a string argument: `t` occurs somewhere in `s`. */
  function Contains(s: string, t: string): bool
    decreases |s|
  {
    if |t| > |s| then false
    else if s[..|t|] == t then true
    else Contains(s[1..], t)
  }

  /** The search above finds `t` exactly when `t` occurs at some position. */
  lemma {:induction false} ContainsIff(s: string, t: string)
    ensures Contains(s, t) <==> exists i :: OccursAt(s, t, i)
    decreases |s|
  {
    if |t| > |s| {
    } else if s[..|t|] == t {
      assert OccursAt(s, t, 0);
    } else {
      ContainsIff(s[1..], t);
      if Contains(s[1..], t) {
        var j :| OccursAt(s[1..], t, j);
        assert s[1..][j..j + |t|] == s[j + 1..j + 1 + |t|];
        assert OccursAt(s, t, j + 1);
      } else {
        forall i | OccursAt(s, t, i)
          ensures false
        {
          assert i != 0;
          assert s[1..][i - 1..i - 1 + |t|] == s[i..i + |t|];
          assert OccursAt(s[1..], t, i - 1);
        }
      }
    }
  }

  /** A string contains every string it has as an infix. */
  lemma ContainsInfix(a: string, t: string, b: string)
    ensures Contains(a + t + b, t)
  {
    var s := a + t + b;
    assert s[|a|..|a| + |t|] == t;
    assert OccursAt(s, t, |a|);
    ContainsIff(s, t);
  }

  /** An ASCII decimal digit. */
  predicate IsDigit(c: char) {
    '0' <= c <= '9'
  }

  /** No character outside the decimal digits; true of the empty string. */
  predicate AllDigits(s: string) {
    forall i :: 0 <= i < |s| ==> IsDigit(s[i])
  }
}
